=== FILE: README.md ===
# Swiss-tournament pairing engine, modelled in Dafny

This project models the pairing engine of a Swiss-system tournament
(`src/tournament.py`). The engine pairs players for the next round from the
current standings, and it avoids rematches.

- `make_pairs` is a greedy first-fit matcher. It walks the standings slots
  in order. For each slot still free, it scans every other free slot in
  standings order and commits the first opponent that `test_pair` accepts.
  It then marks both slots as taken; the source overwrites them with
  `False`.
- `test_pair` counts the recorded matches between two ids, in either order.
  It answers "available" exactly when that count is zero.
- `reportMatch` appends `(winner, loser, winner)` to the matches table and
  gives the winner one more point.

Modules:

- `Wrappers` (`wrappers.dfy`): `Option` and `Result`.
- `MatchHistory` (`match_history.dfy`): match rows, the COUNT query
  `CountBetween`, the reference relation `HasPlayed`, and `TestPair`.
- `Pairing` (`greedy.dfy`): standings rows and pair tuples. It holds a
  recursive reference definition of the matcher (`FirstFit` is the inner
  scan, `GreedyFrom`/`Greedy` the outer loop) and the lemmas that state
  what the matcher guarantees.
- `MakePairs` (`make_pairs.dfy`): the nested-loop method. Each slot has a
  `paired` flag. The inner loop is the method `Scan`, which returns the
  first acceptable opponent; this is the source's `break` after a commit.
  `MakePairs` is proved to compute exactly `Greedy`.
- `Store` (`store.dfy`): the players and matches tables as values, and
  `reportMatch` as a pure update. It also holds the bridge property: a
  reported pair is never paired again.
- `Scenarios` (`scenarios.dfy`): worked four-player inputs.

The code does not reject an odd number of players, and it reports nothing
when a player has no acceptable opponent left. In both cases it returns
fewer pairs and leaves those players out
(`Scenarios.OddCountLeavesLastOut`, `Scenarios.ExhaustedPlayerIsLeftOut`).
`test_pair` asks about both orders of the two ids, so its answer never
depends on which player is named first
(`MatchHistory.CountBetweenSymmetric`).

The guarantees of a run are collected in the predicate `Pairing.GoodRound`:
pairs in range, no slot used twice, pairs in turn order with the turn's
slot ranked first, no rematch, each opponent the first acceptable one, no
turn skipped while its slot and an acceptable opponent are both free,
leftover players have all met each other, and at most half as many pairs
as slots. `Pairing.GoodRoundExactlyGreedy` proves that these guarantees
hold of one sequence of pairs and no other: the run of the matcher.

`make_pairs` works on any slot order; it does not require sorted
standings. Sorting only matters for the promise that partners have similar
records, and `Pairing.SortedStandingsPairHigherFirst` states it under that
assumption. The docstring's "each player appears exactly once" is
guaranteed only when nobody has met yet
(`Pairing.FreshStandingsPairNeighbours`), and can fail otherwise: the
greedy choice does not always pair everybody when a full pairing without
rematches exists (`Scenarios.GreedyCanMissFullPairing`).

## Model

| member | source | states |
|---|---|---|
| MatchHistory.CountBetween | src/tournament.py:169-172 | the count of rows between two ids is at most the history length, and it is zero exactly when no row joins the two ids in either order |
| MatchHistory.TestPair | src/tournament.py:166-175 | `test_pair` answers available exactly when the two ids have never played, per the reference relation `HasPlayed` |
| MatchHistory.CountBetweenSymmetric | src/tournament.py:169-171 | the count does not depend on which player is named first |
| MatchHistory.TestPairSymmetric | src/tournament.py:169-171 | `test_pair(a, b) == test_pair(b, a)` for every history |
| MatchHistory.CountBetweenAppend | src/tournament.py:106 | appending a match row raises the count of exactly the pair it records, by one |
| Pairing.GreedyFrom | src/tournament.py:145-161 | the outer loop from one turn on, as a recursive definition: a taken slot or a slot whose scan finds nobody emits nothing, otherwise the turn emits its slot and the scan's answer and marks both taken; its guarantees are stated by the `GreedyFrom*` lemmas |
| Pairing.Greedy | src/tournament.py:143-163 | a whole run of `make_pairs` from no slot taken; characterised by `GoodRoundExactlyGreedy` |
| Pairing.FirstFit | src/tournament.py:147-161 | the inner scan returns the least slot at or after its start that is a different slot, still free and not a rematch; if it returns nothing, no such slot exists |
| Pairing.GreedyFromShape | src/tournament.py:146-161 | from any turn on, every emitted pair uses two in-range slots that were free in `paired`, the turn's slot is at or after the turn, and the pair is never a rematch; that the opponent ranks below the turn's slot is `GreedyFromAbove` |
| Pairing.GreedyFromDisjoint | src/tournament.py:148-161 | from any turn on, no pair joins a slot to itself, no two pairs share a slot, and pairs come out in turn order |
| Pairing.GreedyFromFirstFit | src/tournament.py:147-161 | each opponent is the first acceptable one: every lower free slot not yet used by an earlier pair had already played the slot whose turn it was |
| Pairing.GreedyFromAbove | src/tournament.py:146-158 | if every free slot before the turn has already played every free slot, each chosen opponent ranks below the slot whose turn it was |
| Pairing.GreedyFromMaximal | src/tournament.py:146-163 | if every free slot before the turn is stuck, any two slots still free at the end have already played each other |
| Pairing.GreedyFromCount | src/tournament.py:159-160 | each committed pair uses up two free slots, so there are at most half as many pairs as free slots |
| Pairing.GreedyFromNoneSkipped | src/tournament.py:145-161 | from any turn on, a slot that is free at its turn while some acceptable opponent is also free opens the next pair |
| Pairing.NoneSkippedSkip | src/tournament.py:145-147 | a turn whose slot is taken or whose scan finds nobody skips no slot that had an opponent |
| Pairing.NoneSkippedCommit | src/tournament.py:156-161 | a turn that commits a pair, followed by the rest of the run, skips no slot that had an opponent |
| Pairing.StuckAdvance | src/tournament.py:146-161 | one turn of the outer loop keeps every earlier free slot without an acceptable opponent |
| Pairing.GreedyCorrect | src/tournament.py:143-163 | a whole run's pairs are in range, slot-disjoint, in increasing order of the turn's slot with that slot ranked first, never rematches, first-fit, skip no turn that had an opponent, are maximal (leftover players have all met each other), and number at most half the slot count |
| Pairing.GoodRoundExactlyGreedy | src/tournament.py:143-163 | a sequence of pairs has all the guarantees of `GoodRound` if and only if it is the run of `make_pairs`, so the guarantees pin the output down completely |
| Pairing.AgreeFrom | src/tournament.py:145-161 | two sequences of pairs with the guarantees that agree on their first k pairs are equal |
| Pairing.NextAgrees | src/tournament.py:145-161 | two sequences of pairs with the guarantees that agree on their first k pairs agree on the next pair, or both end |
| Pairing.FirstsAgree | src/tournament.py:145-147 | two such sequences open their next pair at the same turn, or both end: the earlier turn has a free slot with a free acceptable opponent, so neither may skip it |
| Pairing.SecondNotBelow | src/tournament.py:147-161 | when two such sequences open a pair at the same turn, the opponent of the one that takes the first acceptable slot is never later than the other's; `NextAgrees` applies this both ways to get the same opponent |
| Pairing.FreshStandingsPairNeighbours | src/tournament.py:115-120 | when nobody has met yet, pair k is slots (2k, 2k+1), there are n/2 pairs, and with an even count every player appears exactly once |
| Pairing.EmptyHistoryPairsNeighbours | src/tournament.py:115-120 | with an empty history the result is the neighbour pairing (0, 1), (2, 3), ... |
| Pairing.AdjacentShape | src/tournament.py:115-120 | the neighbour pairing from slot f has (n - f) / 2 pairs, the k-th being (f + 2k, f + 2k + 1) |
| Pairing.GreedyFromFresh | src/tournament.py:146-161 | when nobody has met and exactly the slots before the turn are taken, the rest of the run is the neighbour pairing from that turn |
| Pairing.GreedyTuples | src/tournament.py:158 | with unique ids, no emitted tuple names one player twice, no player appears in two tuples, and no tuple joins two players with a recorded match |
| Pairing.SortedStandingsPairHigherFirst | src/tournament.py:117-120 | on standings sorted by points, the first player of every tuple has at least the points of the second |
| MakePairs.MakePairs | src/tournament.py:143-163 | the nested loops emit exactly the reference pairing and its tuples, with all guarantees of `GreedyCorrect`; the unpaired slots are those in no pair, and any two of them have already played |
| MakePairs.Scan | src/tournament.py:147-161 | one run of the inner loop finds nothing when the turn's slot is already taken, and otherwise finds exactly the first acceptable opponent that `FirstFit` describes |
| MakePairs.CommitStep | src/tournament.py:156-161 | committing the first acceptable opponent and moving to the next turn keeps "pairs so far followed by the rest of the run" equal to the whole reference run |
| MakePairs.SkipStep | src/tournament.py:145-147 | a turn whose slot is taken, or that finds no acceptable opponent, emits nothing and leaves the rest of the run unchanged |
| MakePairs.CommitKeepsCover | src/tournament.py:159-160 | marking both slots of a committed pair keeps the flags equal to "slot is in an emitted pair" |
| Store.Lookup | src/tournament.py:107-108 | finds a row with the winner's id when one exists, and reports none only when no row has it |
| Store.SetPoints | src/tournament.py:109 | the UPDATE keeps every row's id and name, sets the points of every row with the given id, and leaves the other rows' points unchanged |
| Store.ReportMatch | src/tournament.py:93-111 | fails with the winner's id exactly when no player has it; otherwise it appends `(winner, loser, winner)` and leaves every other row unchanged, and with unique ids the winner gains one point |
| Store.ReportMatchKeepsPointsCountingWins | src/tournament.py:106-109 | with unique ids, a successful report keeps every player's points equal to their recorded wins |
| Store.ReportMatchAddsOnePoint | src/tournament.py:107-109 | with unique ids, each successful report raises the total of all points by exactly one |
| Store.ReportMatchBansOnlyThatPair | src/tournament.py:106 | after a report, `test_pair` refuses the reported pair in both orders and answers as before for every other pair |
| Store.ReportedPairNeverPairedAgain | src/tournament.py:153-158 | after a report, no run of the matcher over any standings emits the reported pair in either order |
| Scenarios.FreshRoundPairsNeighbours | src/tournament.py:146-161 | A, B, C, D with no history pair as (A, B), (C, D) |
| Scenarios.RematchIsSkipped | src/tournament.py:153-161 | with A-B already played, A skips B and takes C, and B meets D |
| Scenarios.ThreeWithRematchRun | src/tournament.py:145-161 | with A-B played among A, B, C, A passes over B and takes C, and B is left out |
| Scenarios.SkippedTurnShape | src/tournament.py:145-161 | on that input the round (B, C) is in range, disjoint, in turn order and uses at most half the players |
| Scenarios.SkippedTurnMeetsOtherGuarantees | src/tournament.py:145-161 | the round (B, C) is also free of rematches, first-fit and maximal |
| Scenarios.SkippedTurnSkipsA | src/tournament.py:145-161 | yet the round (B, C) skips A's turn although C is free and has not played A |
| Scenarios.SkippedTurnIsNoRound | src/tournament.py:145-161 | the round (B, C) on that input, which skips A's turn while C is free, does not meet the guarantees of a round |
| Scenarios.OddCountLeavesLastOut | src/tournament.py:146-163 | three players give one pair and the third is left out without an error |
| Scenarios.ExhaustedScans | src/tournament.py:146-157 | if A has met everyone, A's scan finds nobody, B's scan finds C, and once B and C are taken D's scan finds nobody |
| Scenarios.ExhaustedPlayerIsLeftOut | src/tournament.py:146-163 | if A has met everyone, only (B, C) is emitted; A and D are left out without an error |
| Scenarios.CDPlayedScans | src/tournament.py:146-157 | with only C-D played, A's scan finds B, and then neither C nor D finds a free opponent it has not met |
| Scenarios.GreedyCanMissFullPairing | src/tournament.py:115-120 | with only C-D played, the matcher emits (A, B) alone, although (A, C), (B, D) pairs everybody without a rematch |

## Left out

- Database plumbing: `connect`, `deleteMatches`, `deletePlayers`, `countPlayers`, `registerPlayer`, `playerStandings` and the SQL text. They are I/O against a database whose schema is not part of this model. The store is modelled only as the two tables that `reportMatch` updates.
- The ordering of standings by points is done by the database. The matcher takes any order. Sortedness is a hypothesis only where a lemma needs it.
- The standings query's matches-played column is not modelled, because the matcher never reads it.
- The tie order among equal points, which the database picks, is not fixed: the model takes the standings in any order, so every tie order is covered.
- `players_to_pair` is taken to be the length of the standings, not a separately queried count.
- The debug `print` statements in `make_pairs`, the unused `matches_number` and its Python 2 division, and the module-level demo script.
- The `int()` conversions in `reportMatch`: ids are integers in the model.
- Store.ReportMatch: modelled as one atomic step on a store nobody else writes to meanwhile. The source reads the winner's points and writes back that value plus one in two statements, so two overlapping reports for the same winner can lose a point. `ReportMatchKeepsPointsCountingWins` and `ReportMatchAddsOnePoint` hold for reports taken one at a time. Concurrency control is left to the database and is not part of this model.
- The match history is taken as fixed for a whole run of `make_pairs`. The source issues one `test_pair` query per candidate, so a match committed elsewhere during a run is seen only by the queries after it. `GoodRound` and `GreedyCorrect` are stated against a single history.
- Store.ReportMatch: does not check the loser's id, because any foreign-key constraint lives in the unseen schema. A failed report carries no store: nothing is committed, so the tables stay as they were.
- Store.ReportMatch: the winner gains exactly one point only with unique ids. With duplicate ids, every row with that id gets the first such row's points plus one, which the contract states only as "other rows unchanged".
- The pairing side effect on the caller's list (entries overwritten with `False`) is modelled by the `paired` flags. The standings value itself is never changed.

=== FILE: greedy.dfy ===
/** The greedy first-fit matcher of `make_pairs`, as a recursive reference
    definition over standings slots, and the properties it guarantees. */
module Pairing {
  import opened Wrappers
  import opened MatchHistory

  /** One row of the standings handed to the matcher: `(id, name, points)`. */
  datatype Standing = Standing(id: int, name: string, points: int)

  /** One emitted pairing tuple `(id1, name1, id2, name2)`. */
  datatype Pair = Pair(idA: int, nameA: string, idB: int, nameB: string)

  /** The standings slots of a committed pair: `first` is the slot whose
      turn it was, `second` the opponent the scan chose. */
  datatype SlotPair = SlotPair(first: nat, second: nat)

  /** The tuple the source appends for a committed pair of slots. */
  function PairOf(players: seq<Standing>, p: SlotPair): Pair
    requires p.first < |players| && p.second < |players|
  {
    Pair(players[p.first].id, players[p.first].name, players[p.second].id, players[p.second].name)
  }

  /** `test_pair` asked about the players in two slots. */
  predicate Compatible(h: History, players: seq<Standing>, s: nat, j: nat)
    requires s < |players| && j < |players|
  {
    TestPair(h, players[s].id, players[j].id)
  }

  /** Slot `j` is an acceptable opponent for slot `num`: a different slot,
      not yet paired, and not a rematch. */
  predicate Eligible(h: History, players: seq<Standing>, paired: seq<bool>, num: nat, j: nat)
    requires |paired| == |players| && num < |players| && j < |players|
  {
    j != num && !paired[j] && Compatible(h, players, num, j)
  }

  /** The inner scan: the first eligible opponent for `num` at slot `i` or later. */
  function FirstFit(h: History, players: seq<Standing>, paired: seq<bool>, num: nat, i: nat): (r: Option<nat>)
    requires |paired| == |players| && num < |players| && i <= |players|
    ensures r.Some? ==> i <= r.value < |players| && Eligible(h, players, paired, num, r.value)
    ensures forall j :: i <= j < |players| && (r.None? || j < r.value) ==> !Eligible(h, players, paired, num, j)
    decreases |players| - i
  {
    if i == |players| then None
    else if Eligible(h, players, paired, num, i) then Some(i)
    else FirstFit(h, players, paired, num, i + 1)
  }

  /** The outer loop from slot `num` on, with `paired` marking the slots the
      source has overwritten with `False`. */
  function GreedyFrom(h: History, players: seq<Standing>, paired: seq<bool>, num: nat): seq<SlotPair>
    requires |paired| == |players| && num <= |players|
    decreases |players| - num
  {
    if num == |players| then []
    else if paired[num] then GreedyFrom(h, players, paired, num + 1)
    else match FirstFit(h, players, paired, num, 0)
      case None => GreedyFrom(h, players, paired, num + 1)
      case Some(i) => [SlotPair(num, i)] + GreedyFrom(h, players, paired[num := true][i := true], num + 1)
  }

  /** No slot is paired before the first turn. */
  function Unmarked(n: nat): (paired: seq<bool>)
    ensures |paired| == n && forall s :: 0 <= s < n ==> !paired[s]
  {
    seq(n, _ => false)
  }

  /** The slot pairs `make_pairs` commits, in the order it commits them. */
  function Greedy(h: History, players: seq<Standing>): seq<SlotPair> {
    GreedyFrom(h, players, Unmarked(|players|), 0)
  }

  // ----- Properties of a sequence of slot pairs -----

  /** Slot `s` belongs to one of the pairs. */
  predicate Covers(ps: seq<SlotPair>, s: nat) {
    exists k :: 0 <= k < |ps| && (ps[k].first == s || ps[k].second == s)
  }

  predicate InRange(ps: seq<SlotPair>, n: nat) {
    forall k :: 0 <= k < |ps| ==> ps[k].first < n && ps[k].second < n
  }

  /** Every slot is used at most once: no pair joins a slot to itself and no
      two pairs share a slot. */
  predicate SlotDisjoint(ps: seq<SlotPair>) {
    (forall k :: 0 <= k < |ps| ==> ps[k].first != ps[k].second) &&
    (forall k, l :: 0 <= k < l < |ps| ==>
       ps[k].first != ps[l].first && ps[k].first != ps[l].second &&
       ps[k].second != ps[l].first && ps[k].second != ps[l].second)
  }

  /** Pairs come out in increasing order of the slot whose turn it was. */
  predicate FirstsIncreasing(ps: seq<SlotPair>) {
    forall k, l :: 0 <= k < l < |ps| ==> ps[k].first < ps[l].first
  }

  /** The slot whose turn it was ranks above its opponent. */
  predicate FirstAboveSecond(ps: seq<SlotPair>) {
    forall k :: 0 <= k < |ps| ==> ps[k].first < ps[k].second
  }

  /** No emitted pair has met before. */
  predicate NoRematch(h: History, players: seq<Standing>, ps: seq<SlotPair>)
    requires InRange(ps, |players|)
  {
    forall k :: 0 <= k < |ps| ==> Compatible(h, players, ps[k].first, ps[k].second)
  }

  /** Each opponent is the first acceptable one in standings order: every
      lower slot that was still free when the pair was committed had already
      played the slot whose turn it was. */
  predicate FirstFitChoice(h: History, players: seq<Standing>, ps: seq<SlotPair>)
    requires InRange(ps, |players|)
  {
    forall k, j :: 0 <= k < |ps| && 0 <= j < ps[k].second && j != ps[k].first && !Covers(ps[..k], j) ==>
      !Compatible(h, players, ps[k].first, j)
  }

  /** `FirstFitChoice` for a run that starts with the slots `paired` already
      taken. */
  predicate FirstFitFrom(h: History, players: seq<Standing>, paired: seq<bool>, ps: seq<SlotPair>)
    requires |paired| == |players| && InRange(ps, |players|)
  {
    forall k, j :: 0 <= k < |ps| && 0 <= j < ps[k].second && j != ps[k].first && !paired[j] && !Covers(ps[..k], j) ==>
      !Compatible(h, players, ps[k].first, j)
  }

  /** `ps[..k]` are exactly the pairs committed before slot `s`'s turn:
      the pairs are in turn order, so they are the ones whose turn slot
      lies below `s`. */
  predicate CommittedBefore(ps: seq<SlotPair>, k: nat, s: nat)
    requires k <= |ps|
  {
    (k == 0 || ps[k - 1].first < s) && (k == |ps| || s <= ps[k].first)
  }

  /** No turn is skipped: a slot that is still free when its turn comes,
      while some acceptable opponent is also still free, opens the next
      pair. */
  predicate NoneSkipped(h: History, players: seq<Standing>, ps: seq<SlotPair>) {
    forall k, s, j ::
      (0 <= k <= |ps| && 0 <= s < |players| && 0 <= j < |players| && s != j &&
       CommittedBefore(ps, k, s) && !Covers(ps[..k], s) && !Covers(ps[..k], j) &&
       Compatible(h, players, s, j)) ==> k < |ps| && ps[k].first == s
  }

  /** `NoneSkipped` for a run that starts at turn `num` with the slots
      `paired` already taken. */
  predicate NoneSkippedFrom(h: History, players: seq<Standing>, paired: seq<bool>, num: nat, ps: seq<SlotPair>)
    requires |paired| == |players|
  {
    forall k, s, j ::
      (0 <= k <= |ps| && num <= s < |players| && 0 <= j < |players| && s != j &&
       CommittedBefore(ps, k, s) && !paired[s] && !paired[j] && !Covers(ps[..k], s) && !Covers(ps[..k], j) &&
       Compatible(h, players, s, j)) ==> k < |ps| && ps[k].first == s
  }

  /** Nobody is left out while an acceptable opponent is left: any two
      slots outside every pair have already played each other. */
  predicate Maximal(h: History, players: seq<Standing>, ps: seq<SlotPair>) {
    forall s, j :: 0 <= s < |players| && 0 <= j < |players| && s != j && !Covers(ps, s) && !Covers(ps, j) ==>
      !Compatible(h, players, s, j)
  }

  /** Everything a run of the matcher guarantees about its pairs. */
  predicate GoodRound(h: History, players: seq<Standing>, ps: seq<SlotPair>) {
    InRange(ps, |players|) && SlotDisjoint(ps) && FirstsIncreasing(ps) && FirstAboveSecond(ps) &&
    NoRematch(h, players, ps) && FirstFitChoice(h, players, ps) && NoneSkipped(h, players, ps) &&
    Maximal(h, players, ps) && 2 * |ps| <= |players|
  }

  /** Every slot below `num` that is still free has no acceptable opponent
      left: the state the outer loop keeps. */
  predicate Stuck(h: History, players: seq<Standing>, paired: seq<bool>, num: nat)
    requires |paired| == |players| && num <= |players|
  {
    forall s, j :: 0 <= s < num && 0 <= j < |players| && s != j && !paired[s] && !paired[j] ==>
      !Compatible(h, players, s, j)
  }

  // ----- Small facts about Covers -----

  lemma CoversCons(x: SlotPair, ps: seq<SlotPair>, s: nat)
    ensures Covers([x] + ps, s) <==> x.first == s || x.second == s || Covers(ps, s)
  {
    var xs := [x] + ps;
    assert xs[0] == x;
    if Covers(ps, s) {
      var k :| 0 <= k < |ps| && (ps[k].first == s || ps[k].second == s);
      assert xs[k + 1] == ps[k];
    }
    if Covers(xs, s) {
      var k :| 0 <= k < |xs| && (xs[k].first == s || xs[k].second == s);
      if k > 0 {
        assert ps[k - 1] == xs[k];
      }
    }
  }

  lemma PrefixCons(x: SlotPair, ps: seq<SlotPair>, k: nat)
    requires k <= |ps|
    ensures ([x] + ps)[..k + 1] == [x] + ps[..k]
  {
  }

  // ----- Induction over the outer loop -----

  /** The structural guarantees of one run from slot `num` on: pairs stay in
      range, use only free slots at or after `num`, and are never rematches. */
  lemma {:induction false} GreedyFromShape(h: History, players: seq<Standing>, paired: seq<bool>, num: nat)
    requires |paired| == |players| && num <= |players|
    ensures InRange(GreedyFrom(h, players, paired, num), |players|)
    ensures var ps := GreedyFrom(h, players, paired, num);
      NoRematch(h, players, ps) &&
      forall k :: 0 <= k < |ps| ==> num <= ps[k].first && !paired[ps[k].first] && !paired[ps[k].second]
    decreases |players| - num
  {
    if num < |players| {
      if paired[num] {
        GreedyFromShape(h, players, paired, num + 1);
      } else {
        match FirstFit(h, players, paired, num, 0)
        case None =>
          GreedyFromShape(h, players, paired, num + 1);
        case Some(i) =>
          var paired' := paired[num := true][i := true];
          GreedyFromShape(h, players, paired', num + 1);
          var rest := GreedyFrom(h, players, paired', num + 1);
          var ps := [SlotPair(num, i)] + rest;
          assert GreedyFrom(h, players, paired, num) == ps;
          forall k | 0 <= k < |ps|
            ensures ps[k].first < |players| && ps[k].second < |players|
            ensures num <= ps[k].first && !paired[ps[k].first] && !paired[ps[k].second]
            ensures Compatible(h, players, ps[k].first, ps[k].second)
          {
            if k > 0 {
              assert ps[k] == rest[k - 1];
              assert !paired'[ps[k].first] && !paired'[ps[k].second];
            }
          }
      }
    }
  }

  /** From slot `num` on, no two pairs share a slot and pairs come out in
      turn order. */
  lemma {:induction false} GreedyFromDisjoint(h: History, players: seq<Standing>, paired: seq<bool>, num: nat)
    requires |paired| == |players| && num <= |players|
    ensures var ps := GreedyFrom(h, players, paired, num);
      SlotDisjoint(ps) && FirstsIncreasing(ps)
    decreases |players| - num
  {
    if num < |players| {
      if paired[num] {
        GreedyFromDisjoint(h, players, paired, num + 1);
        assert GreedyFrom(h, players, paired, num) == GreedyFrom(h, players, paired, num + 1);
      } else {
        match FirstFit(h, players, paired, num, 0)
        case None =>
          GreedyFromDisjoint(h, players, paired, num + 1);
          assert GreedyFrom(h, players, paired, num) == GreedyFrom(h, players, paired, num + 1);
        case Some(i) =>
          var x := SlotPair(num, i);
          var paired' := paired[num := true][i := true];
          GreedyFromDisjoint(h, players, paired', num + 1);
          GreedyFromShape(h, players, paired', num + 1);
          var rest := GreedyFrom(h, players, paired', num + 1);
          assert GreedyFrom(h, players, paired, num) == [x] + rest;
          forall l | 0 <= l < |rest|
            ensures x.first < rest[l].first && x.first != rest[l].second
            ensures x.second != rest[l].first && x.second != rest[l].second
          {
            assert !paired'[rest[l].first] && !paired'[rest[l].second];
          }
          ConsDisjoint(x, rest);
      }
    }
  }

  /** Putting a pair in front of disjoint, ordered pairs keeps them so when
      its slots are new and its turn comes first. */
  lemma ConsDisjoint(x: SlotPair, rest: seq<SlotPair>)
    requires SlotDisjoint(rest) && FirstsIncreasing(rest) && x.first != x.second
    requires forall l :: 0 <= l < |rest| ==>
      x.first < rest[l].first && x.first != rest[l].second &&
      x.second != rest[l].first && x.second != rest[l].second
    ensures SlotDisjoint([x] + rest) && FirstsIncreasing([x] + rest)
  {
    var ps := [x] + rest;
    forall k, l | 0 <= k < l < |ps|
      ensures ps[k].first != ps[l].first && ps[k].first != ps[l].second
      ensures ps[k].second != ps[l].first && ps[k].second != ps[l].second
      ensures ps[k].first < ps[l].first
    {
      assert ps[l] == rest[l - 1];
      if k > 0 {
        assert ps[k] == rest[k - 1];
      }
    }
    forall k | 0 <= k < |ps|
      ensures ps[k].first != ps[k].second
    {
      if k > 0 {
        assert ps[k] == rest[k - 1];
      }
    }
  }

  /** From slot `num` on, each opponent is the first free, acceptable slot. */
  lemma {:induction false} GreedyFromFirstFit(h: History, players: seq<Standing>, paired: seq<bool>, num: nat)
    requires |paired| == |players| && num <= |players|
    ensures InRange(GreedyFrom(h, players, paired, num), |players|)
    ensures FirstFitFrom(h, players, paired, GreedyFrom(h, players, paired, num))
    decreases |players| - num, 1
  {
    GreedyFromShape(h, players, paired, num);
    if num < |players| {
      if paired[num] || FirstFit(h, players, paired, num, 0).None? {
        GreedyFromFirstFit(h, players, paired, num + 1);
        GreedyFromSkip(h, players, paired, num);
      } else {
        FirstFitCommit(h, players, paired, num, FirstFit(h, players, paired, num, 0).value);
      }
    }
  }

  /** A turn that commits `(num, i)` chose the first free, acceptable slot,
      and so do the turns after it. */
  lemma FirstFitCommit(h: History, players: seq<Standing>, paired: seq<bool>, num: nat, i: nat)
    requires |paired| == |players| && num < |players| && !paired[num]
    requires FirstFit(h, players, paired, num, 0) == Some(i)
    ensures InRange(GreedyFrom(h, players, paired, num), |players|)
    ensures FirstFitFrom(h, players, paired, GreedyFrom(h, players, paired, num))
    decreases |players| - num, 0
  {
    GreedyFromShape(h, players, paired, num);
    var x := SlotPair(num, i);
    var paired' := paired[num := true][i := true];
    GreedyFromFirstFit(h, players, paired', num + 1);
    var rest := GreedyFrom(h, players, paired', num + 1);
    var ps := [x] + rest;
    assert GreedyFrom(h, players, paired, num) == ps;
    forall k, j | 0 <= k < |ps| && 0 <= j < ps[k].second && j != ps[k].first && !paired[j] && !Covers(ps[..k], j)
      ensures !Compatible(h, players, ps[k].first, j)
    {
      if k == 0 {
        assert ps[k] == x;
        assert j < i;
        assert !Eligible(h, players, paired, num, j);
      } else {
        assert ps[k] == rest[k - 1];
        PrefixCons(x, rest, k - 1);
        CoversCons(x, rest[..k - 1], j);
        assert j != num && j != i && !Covers(rest[..k - 1], j);
        assert !paired'[j];
      }
    }
  }

  /** From slot `num` on, no turn with an acceptable opponent left is
      skipped. */
  lemma {:induction false} GreedyFromNoneSkipped(h: History, players: seq<Standing>, paired: seq<bool>, num: nat)
    requires |paired| == |players| && num <= |players|
    ensures NoneSkippedFrom(h, players, paired, num, GreedyFrom(h, players, paired, num))
    decreases |players| - num, 1
  {
    if num < |players| {
      if paired[num] || FirstFit(h, players, paired, num, 0).None? {
        NoneSkippedSkip(h, players, paired, num);
      } else {
        NoneSkippedCommit(h, players, paired, num, FirstFit(h, players, paired, num, 0).value);
      }
    }
  }

  /** A turn that emits nothing skips no slot with an opponent: its own
      slot is taken or has none. */
  lemma NoneSkippedSkip(h: History, players: seq<Standing>, paired: seq<bool>, num: nat)
    requires |paired| == |players| && num < |players|
    requires paired[num] || FirstFit(h, players, paired, num, 0).None?
    ensures NoneSkippedFrom(h, players, paired, num, GreedyFrom(h, players, paired, num))
    decreases |players| - num, 0
  {
    GreedyFromNoneSkipped(h, players, paired, num + 1);
    GreedyFromSkip(h, players, paired, num);
    if !paired[num] {
      forall j | 0 <= j < |players| && j != num && !paired[j]
        ensures !Compatible(h, players, num, j)
      {
        assert !Eligible(h, players, paired, num, j);
      }
    }
    NoneSkippedEarlier(h, players, paired, num, GreedyFrom(h, players, paired, num));
  }

  /** Turn `num` cannot be skipped wrongly when its slot is taken or has no
      free acceptable opponent. */
  lemma NoneSkippedEarlier(h: History, players: seq<Standing>, paired: seq<bool>, num: nat, ps: seq<SlotPair>)
    requires |paired| == |players| && num < |players|
    requires paired[num] || forall j :: 0 <= j < |players| && j != num && !paired[j] ==> !Compatible(h, players, num, j)
    requires NoneSkippedFrom(h, players, paired, num + 1, ps)
    ensures NoneSkippedFrom(h, players, paired, num, ps)
  {
    forall k, s, j |
      (0 <= k <= |ps| && num <= s < |players| && 0 <= j < |players| && s != j &&
       CommittedBefore(ps, k, s) && !paired[s] && !paired[j] && !Covers(ps[..k], s) && !Covers(ps[..k], j) &&
       Compatible(h, players, s, j))
      ensures k < |ps| && ps[k].first == s
    {
      assert num + 1 <= s;
    }
  }

  /** A turn that commits `(num, i)` skips no slot with an opponent. */
  lemma NoneSkippedCommit(h: History, players: seq<Standing>, paired: seq<bool>, num: nat, i: nat)
    requires |paired| == |players| && num < |players| && !paired[num]
    requires FirstFit(h, players, paired, num, 0) == Some(i)
    ensures NoneSkippedFrom(h, players, paired, num, GreedyFrom(h, players, paired, num))
    decreases |players| - num, 0
  {
    var paired' := paired[num := true][i := true];
    GreedyFromNoneSkipped(h, players, paired', num + 1);
    GreedyFromShape(h, players, paired', num + 1);
    GreedyFromCommit(h, players, paired, num, i);
    NoneSkippedCons(h, players, paired, SlotPair(num, i), GreedyFrom(h, players, paired', num + 1));
  }

  /** Putting the pair committed at turn `x.first` in front of the rest of
      the run skips no turn: turns up to `x.first` are covered by `x`
      itself, and later turns are turns of the rest. */
  lemma NoneSkippedCons(h: History, players: seq<Standing>, paired: seq<bool>, x: SlotPair, rest: seq<SlotPair>)
    requires |paired| == |players| && x.first < |players| && x.second < |players|
    requires InRange(rest, |players|) && forall l :: 0 <= l < |rest| ==> x.first < rest[l].first
    requires NoneSkippedFrom(h, players, paired[x.first := true][x.second := true], x.first + 1, rest)
    ensures NoneSkippedFrom(h, players, paired, x.first, [x] + rest)
  {
    var ps := [x] + rest;
    forall k, s, j |
      (0 < k <= |ps| && x.first <= s < |players| && 0 <= j < |players| && s != j &&
       CommittedBefore(ps, k, s) && !paired[s] && !paired[j] && !Covers(ps[..k], s) && !Covers(ps[..k], j) &&
       Compatible(h, players, s, j))
      ensures k < |ps| && ps[k].first == s
    {
      var paired' := paired[x.first := true][x.second := true];
      PrefixCons(x, rest, k - 1);
      CoversCons(x, rest[..k - 1], s);
      CoversCons(x, rest[..k - 1], j);
      assert !paired'[s] && !paired'[j];
      if k > 1 {
        assert ps[k - 1] == rest[k - 2];
      }
      assert k - 1 < |rest| ==> ps[k] == rest[k - 1];
      assert CommittedBefore(rest, k - 1, s);
    }
  }

  /** One turn of the outer loop that emits nothing. */
  lemma GreedyFromSkip(h: History, players: seq<Standing>, paired: seq<bool>, num: nat)
    requires |paired| == |players| && num < |players|
    requires paired[num] || FirstFit(h, players, paired, num, 0).None?
    ensures GreedyFrom(h, players, paired, num) == GreedyFrom(h, players, paired, num + 1)
  {
  }

  /** One turn of the outer loop that commits `(num, i)`. */
  lemma GreedyFromCommit(h: History, players: seq<Standing>, paired: seq<bool>, num: nat, i: nat)
    requires |paired| == |players| && num < |players|
    requires !paired[num] && FirstFit(h, players, paired, num, 0) == Some(i)
    ensures GreedyFrom(h, players, paired, num) ==
      [SlotPair(num, i)] + GreedyFrom(h, players, paired[num := true][i := true], num + 1)
  {
  }

  /** One turn of the outer loop keeps the `Stuck` state. */
  lemma StuckAdvance(h: History, players: seq<Standing>, paired: seq<bool>, num: nat)
    requires |paired| == |players| && num < |players| && Stuck(h, players, paired, num)
    ensures paired[num] || FirstFit(h, players, paired, num, 0).None? ==> Stuck(h, players, paired, num + 1)
    ensures !paired[num] && FirstFit(h, players, paired, num, 0).Some? ==>
      Stuck(h, players, paired[num := true][FirstFit(h, players, paired, num, 0).value := true], num + 1)
  {
    var r := FirstFit(h, players, paired, num, 0);
    if !paired[num] && r.None? {
      forall j | 0 <= j < |players| && num != j && !paired[j]
        ensures !Compatible(h, players, num, j)
      {
        assert !Eligible(h, players, paired, num, j);
      }
    }
  }

  /** Given that every free slot before `num` is stuck, each opponent chosen
      from `num` on sits in a later slot than the slot whose turn it was:
      the earlier free slots have already played everyone free, and
      `test_pair` is symmetric. */
  lemma {:induction false} GreedyFromAbove(h: History, players: seq<Standing>, paired: seq<bool>, num: nat)
    requires |paired| == |players| && num <= |players| && Stuck(h, players, paired, num)
    ensures FirstAboveSecond(GreedyFrom(h, players, paired, num))
    decreases |players| - num
  {
    if num < |players| {
      StuckAdvance(h, players, paired, num);
      if paired[num] {
        GreedyFromAbove(h, players, paired, num + 1);
      } else {
        match FirstFit(h, players, paired, num, 0)
        case None =>
          GreedyFromAbove(h, players, paired, num + 1);
        case Some(i) =>
          var paired' := paired[num := true][i := true];
          GreedyFromAbove(h, players, paired', num + 1);
          var rest := GreedyFrom(h, players, paired', num + 1);
          var ps := [SlotPair(num, i)] + rest;
          assert GreedyFrom(h, players, paired, num) == ps;
          assert num < i by {
            TestPairSymmetric(h, players[num].id, players[i].id);
          }
          assert forall k :: 0 < k < |ps| ==> ps[k] == rest[k - 1];
      }
    }
  }

  /** Given that every free slot before `num` is stuck, any two slots still
      free at the end have already played each other. */
  lemma {:induction false} GreedyFromMaximal(h: History, players: seq<Standing>, paired: seq<bool>, num: nat)
    requires |paired| == |players| && num <= |players| && Stuck(h, players, paired, num)
    ensures var ps := GreedyFrom(h, players, paired, num);
      forall s, j ::
        (0 <= s < |players| && 0 <= j < |players| && s != j && !paired[s] && !paired[j] &&
         !Covers(ps, s) && !Covers(ps, j)) ==> !Compatible(h, players, s, j)
    decreases |players| - num
  {
    if num < |players| {
      StuckAdvance(h, players, paired, num);
      if paired[num] {
        GreedyFromMaximal(h, players, paired, num + 1);
      } else {
        match FirstFit(h, players, paired, num, 0)
        case None =>
          GreedyFromMaximal(h, players, paired, num + 1);
        case Some(i) =>
          var x := SlotPair(num, i);
          var paired' := paired[num := true][i := true];
          GreedyFromMaximal(h, players, paired', num + 1);
          var rest := GreedyFrom(h, players, paired', num + 1);
          var ps := [x] + rest;
          assert GreedyFrom(h, players, paired, num) == ps;
          forall s, j | 0 <= s < |players| && 0 <= j < |players| && s != j && !paired[s] && !paired[j] &&
            !Covers(ps, s) && !Covers(ps, j)
            ensures !Compatible(h, players, s, j)
          {
            CoversCons(x, rest, s);
            CoversCons(x, rest, j);
          }
      }
    }
  }

  /** The number of free slots. */
  function FreeCount(paired: seq<bool>): nat {
    if |paired| == 0 then 0 else (if paired[0] then 0 else 1) + FreeCount(paired[1..])
  }

  lemma {:induction false} FreeCountMark(paired: seq<bool>, i: nat)
    requires i < |paired| && !paired[i]
    ensures FreeCount(paired[i := true]) + 1 == FreeCount(paired)
  {
    if i == 0 {
      assert paired[i := true][1..] == paired[1..];
    } else {
      assert paired[i := true][1..] == paired[1..][i - 1 := true];
      FreeCountMark(paired[1..], i - 1);
    }
  }

  lemma {:induction false} FreeCountUnmarked(n: nat)
    ensures FreeCount(Unmarked(n)) == n
  {
    if n > 0 {
      assert Unmarked(n)[1..] == Unmarked(n - 1);
      FreeCountUnmarked(n - 1);
    }
  }

  /** Each committed pair uses up two free slots. */
  lemma {:induction false} GreedyFromCount(h: History, players: seq<Standing>, paired: seq<bool>, num: nat)
    requires |paired| == |players| && num <= |players|
    ensures 2 * |GreedyFrom(h, players, paired, num)| <= FreeCount(paired)
    decreases |players| - num
  {
    if num < |players| {
      if paired[num] {
        GreedyFromCount(h, players, paired, num + 1);
      } else {
        match FirstFit(h, players, paired, num, 0)
        case None =>
          GreedyFromCount(h, players, paired, num + 1);
        case Some(i) =>
          var paired' := paired[num := true][i := true];
          GreedyFromCount(h, players, paired', num + 1);
          FreeCountMark(paired, num);
          FreeCountMark(paired[num := true], i);
      }
    }
  }

  // ----- What make_pairs guarantees -----

  /** The pairs of a whole run: in range, each slot used at most once, in
      turn order with the turn's slot ranked above its opponent, never a
      rematch, each opponent the first acceptable one, nobody left out while
      an acceptable opponent remains, and at most half as many pairs as
      slots. */
  lemma GreedyCorrect(h: History, players: seq<Standing>)
    ensures GoodRound(h, players, Greedy(h, players))
  {
    var paired := Unmarked(|players|);
    GreedyFromShape(h, players, paired, 0);
    GreedyFromDisjoint(h, players, paired, 0);
    GreedyFromFirstFit(h, players, paired, 0);
    GreedyFromAbove(h, players, paired, 0);
    GreedyFromMaximal(h, players, paired, 0);
    GreedyFromCount(h, players, paired, 0);
    FreeCountUnmarked(|players|);
    GreedyFromNoneSkipped(h, players, paired, 0);
  }

  // ----- The guarantees determine the run -----

  /** A slot pair never reuses a slot of an earlier pair. */
  lemma DisjointFresh(ps: seq<SlotPair>, k: nat)
    requires SlotDisjoint(ps) && k < |ps|
    ensures !Covers(ps[..k], ps[k].first) && !Covers(ps[..k], ps[k].second)
  {
    forall l | 0 <= l < k
      ensures ps[..k][l] == ps[l]
    {
    }
  }

  /** Two rounds with the guarantees that agree on their first `k` pairs
      open their next pair, if either has one, at the same turn: the
      earlier of the two turns has a free slot with a free acceptable
      opponent, so neither round may skip it. */
  lemma OpensAt(h: History, players: seq<Standing>, ps: seq<SlotPair>, qs: seq<SlotPair>, k: nat)
    requires InRange(ps, |players|) && SlotDisjoint(ps) && FirstsIncreasing(ps) && NoRematch(h, players, ps)
    requires NoneSkipped(h, players, qs)
    requires k < |ps| && k <= |qs| && ps[..k] == qs[..k]
    requires k == |qs| || ps[k].first <= qs[k].first
    ensures k < |qs| && qs[k].first == ps[k].first
  {
    var a, m := ps[k].first, ps[k].second;
    DisjointFresh(ps, k);
    if k > 0 {
      assert qs[k - 1] == ps[..k][k - 1] == ps[k - 1];
    }
    NoneSkippedAt(h, players, qs, k, a, m);
  }

  /** Two rounds with the guarantees that agree on their first `k` pairs and
      open their next pair at the same turn choose the same opponent: each
      opponent is the first acceptable one, and the same slots are free. */
  lemma SecondNotBelow(h: History, players: seq<Standing>, ps: seq<SlotPair>, qs: seq<SlotPair>, k: nat)
    requires InRange(ps, |players|) && SlotDisjoint(ps) && NoRematch(h, players, ps)
    requires InRange(qs, |players|) && FirstFitChoice(h, players, qs)
    requires k < |ps| && k < |qs| && ps[..k] == qs[..k] && ps[k].first == qs[k].first
    ensures qs[k].second <= ps[k].second
  {
    DisjointFresh(ps, k);
    assert Compatible(h, players, qs[k].first, ps[k].second);
    assert !Covers(qs[..k], ps[k].second);
  }

  /** Two rounds with the guarantees are equal from the `k`-th pair on once
      they agree on the first `k` pairs. */
  lemma {:induction false} AgreeFrom(h: History, players: seq<Standing>, ps: seq<SlotPair>, qs: seq<SlotPair>, k: nat)
    requires GoodRound(h, players, ps) && GoodRound(h, players, qs)
    requires k <= |ps| && k <= |qs| && ps[..k] == qs[..k]
    ensures ps == qs
    decreases |ps| - k
  {
    NextAgrees(h, players, ps, qs, k);
    if k < |ps| {
      AgreeFrom(h, players, ps, qs, k + 1);
    } else {
      assert ps == ps[..k] && qs == qs[..k];
    }
  }

  /** Two rounds with the guarantees that agree on their first `k` pairs
      agree on the next one too, or both end there. */
  lemma NextAgrees(h: History, players: seq<Standing>, ps: seq<SlotPair>, qs: seq<SlotPair>, k: nat)
    requires GoodRound(h, players, ps) && GoodRound(h, players, qs)
    requires k <= |ps| && k <= |qs| && ps[..k] == qs[..k]
    ensures k < |ps| <==> k < |qs|
    ensures k < |ps| ==> ps[..k + 1] == qs[..k + 1]
  {
    FirstsAgree(h, players, ps, qs, k);
    if k < |ps| {
      SecondNotBelow(h, players, ps, qs, k);
      SecondNotBelow(h, players, qs, ps, k);
      PrefixExtend(ps, qs, k);
    }
  }

  /** Two rounds with the guarantees that agree on their first `k` pairs
      both end there or both open their next pair at the same turn. */
  lemma FirstsAgree(h: History, players: seq<Standing>, ps: seq<SlotPair>, qs: seq<SlotPair>, k: nat)
    requires InRange(ps, |players|) && SlotDisjoint(ps) && FirstsIncreasing(ps) && NoRematch(h, players, ps)
    requires InRange(qs, |players|) && SlotDisjoint(qs) && FirstsIncreasing(qs) && NoRematch(h, players, qs)
    requires NoneSkipped(h, players, ps) && NoneSkipped(h, players, qs)
    requires k <= |ps| && k <= |qs| && ps[..k] == qs[..k]
    ensures k < |ps| <==> k < |qs|
    ensures k < |ps| ==> ps[k].first == qs[k].first
  {
    if k < |ps| && (k == |qs| || ps[k].first <= qs[k].first) {
      OpensAt(h, players, ps, qs, k);
    } else if k < |qs| {
      OpensAt(h, players, qs, ps, k);
    }
  }

  lemma PrefixExtend(ps: seq<SlotPair>, qs: seq<SlotPair>, k: nat)
    requires k < |ps| && k < |qs| && ps[..k] == qs[..k] && ps[k] == qs[k]
    ensures ps[..k + 1] == qs[..k + 1]
  {
    assert ps[..k + 1] == ps[..k] + [ps[k]] && qs[..k + 1] == qs[..k] + [qs[k]];
  }

  /** `NoneSkipped` read at one turn. */
  lemma NoneSkippedAt(h: History, players: seq<Standing>, ps: seq<SlotPair>, k: nat, s: nat, j: nat)
    requires NoneSkipped(h, players, ps)
    requires k <= |ps| && s < |players| && j < |players| && s != j
    requires CommittedBefore(ps, k, s) && !Covers(ps[..k], s) && !Covers(ps[..k], j) && Compatible(h, players, s, j)
    ensures k < |ps| && ps[k].first == s
  {
  }

  /** The guarantees of `GoodRound` hold of exactly one sequence of pairs:
      the run of `make_pairs`. */
  lemma GoodRoundExactlyGreedy(h: History, players: seq<Standing>, ps: seq<SlotPair>)
    ensures GoodRound(h, players, ps) <==> ps == Greedy(h, players)
  {
    GreedyCorrect(h, players);
    if GoodRound(h, players, ps) {
      AgreeFrom(h, players, ps, Greedy(h, players), 0);
    }
  }

  // ----- Fresh standings: neighbours are paired -----

  /** Neighbouring slots from `from` on: `(from, from+1), (from+2, from+3), ...`. */
  function Adjacent(from: nat, n: nat): seq<SlotPair>
    decreases n - from
  {
    if from + 1 < n then [SlotPair(from, from + 1)] + Adjacent(from + 2, n) else []
  }

  lemma {:induction false} AdjacentShape(from: nat, n: nat)
    requires from <= n
    ensures |Adjacent(from, n)| == (n - from) / 2
    ensures forall k :: 0 <= k < |Adjacent(from, n)| ==> Adjacent(from, n)[k] == SlotPair(from + 2 * k, from + 2 * k + 1)
    decreases n - from
  {
    if from + 1 < n {
      AdjacentShape(from + 2, n);
      var rest := Adjacent(from + 2, n);
      assert forall k :: 0 < k < |Adjacent(from, n)| ==> Adjacent(from, n)[k] == rest[k - 1];
    }
  }

  /** No two players in the standings have met yet. */
  predicate NoneHavePlayed(h: History, players: seq<Standing>) {
    forall s, j :: 0 <= s < |players| && 0 <= j < |players| && s != j ==> Compatible(h, players, s, j)
  }

  lemma {:induction false} GreedyFromFresh(h: History, players: seq<Standing>, paired: seq<bool>, num: nat)
    requires NoneHavePlayed(h, players)
    requires |paired| == |players| && num <= |players|
    requires forall s :: 0 <= s < |players| ==> (paired[s] <==> s < num)
    ensures GreedyFrom(h, players, paired, num) == Adjacent(num, |players|)
    decreases |players| - num
  {
    if num < |players| {
      var r := FirstFit(h, players, paired, num, 0);
      if num + 1 < |players| {
        assert Eligible(h, players, paired, num, num + 1);
        assert r == Some(num + 1);
        var paired' := paired[num := true][num + 1 := true];
        GreedyFromFresh(h, players, paired', num + 2);
        assert GreedyFrom(h, players, paired', num + 1) == GreedyFrom(h, players, paired', num + 2);
      } else {
        assert r == None;
      }
    }
  }

  /** When nobody in the standings has met, every slot is paired with its
      neighbour: `(0, 1), (2, 3), ...`; with an even number of slots every
      player appears exactly once. */
  lemma FreshStandingsPairNeighbours(h: History, players: seq<Standing>)
    requires NoneHavePlayed(h, players)
    ensures var ps := Greedy(h, players);
      |ps| == |players| / 2 &&
      (forall k :: 0 <= k < |ps| ==> ps[k] == SlotPair(2 * k, 2 * k + 1)) &&
      (|players| % 2 == 0 ==> forall s :: 0 <= s < |players| ==> Covers(ps, s))
  {
    GreedyFromFresh(h, players, Unmarked(|players|), 0);
    AdjacentShape(0, |players|);
    var ps := Greedy(h, players);
    if |players| % 2 == 0 {
      forall s | 0 <= s < |players|
        ensures Covers(ps, s)
      {
        var k := s / 2;
        assert ps[k].first == s || ps[k].second == s;
      }
    }
  }

  /** With an empty match history, as in the first round, the standings are
      paired off neighbour by neighbour. */
  lemma EmptyHistoryPairsNeighbours(players: seq<Standing>)
    ensures Greedy([], players) == Adjacent(0, |players|)
  {
    GreedyFromFresh([], players, Unmarked(|players|), 0);
  }

  // ----- The emitted tuples -----

  /** `pairs` are the tuples of the slot pairs `ps`, in the same order. */
  predicate Emits(players: seq<Standing>, ps: seq<SlotPair>, pairs: seq<Pair>) {
    InRange(ps, |players|) && |pairs| == |ps| &&
    forall k :: 0 <= k < |ps| ==> pairs[k] == PairOf(players, ps[k])
  }

  /** Player ids are unique, as the database's serial ids are. */
  predicate DistinctIds(players: seq<Standing>) {
    forall s, j :: 0 <= s < |players| && 0 <= j < |players| && s != j ==> players[s].id != players[j].id
  }

  /** With unique ids, no tuple pairs a player with themself, no player
      appears in two tuples, and no tuple joins two players with a recorded
      match between them. */
  lemma GreedyTuples(h: History, players: seq<Standing>, pairs: seq<Pair>)
    requires DistinctIds(players) && Emits(players, Greedy(h, players), pairs)
    ensures
      (forall k :: 0 <= k < |pairs| ==> pairs[k].idA != pairs[k].idB && !HasPlayed(h, pairs[k].idA, pairs[k].idB)) &&
      (forall k, l :: 0 <= k < l < |pairs| ==>
         pairs[k].idA != pairs[l].idA && pairs[k].idA != pairs[l].idB &&
         pairs[k].idB != pairs[l].idA && pairs[k].idB != pairs[l].idB)
  {
    GreedyCorrect(h, players);
  }

  /** Standings ordered by points, highest first, as the standings query
      returns them. */
  predicate SortedByPoints(players: seq<Standing>) {
    forall s, j :: 0 <= s < j < |players| ==> players[s].points >= players[j].points
  }

  /** On sorted standings every tuple names the higher-ranked player first,
      so its first player has at least as many points as its second. */
  lemma SortedStandingsPairHigherFirst(h: History, players: seq<Standing>)
    requires SortedByPoints(players)
    ensures InRange(Greedy(h, players), |players|)
    ensures var ps := Greedy(h, players);
      forall k :: 0 <= k < |ps| ==> players[ps[k].first].points >= players[ps[k].second].points
  {
    GreedyCorrect(h, players);
  }
}

=== FILE: make_pairs.dfy ===
/** `make_pairs` as the source writes it: two nested loops over standings
    slots, a flag per slot in place of overwriting the entry with `False`,
    and a `test_pair` query per candidate. */
module MakePairs {
  import opened Wrappers
  import opened MatchHistory
  import opened Pairing

  /** Pairs the standings `players` for the next round against `history`.
      Returns the emitted tuples, the slot pairs behind them, and the slots
      left unpaired. A player without an acceptable opponent is left out
      silently; an odd number of players is not rejected. */
  method MakePairs(history: History, players: seq<Standing>)
    returns (pairs: seq<Pair>, slots: seq<SlotPair>, unpaired: set<nat>)
    ensures slots == Greedy(history, players)
    ensures Emits(players, slots, pairs)
    ensures GoodRound(history, players, slots)
    ensures forall s: nat :: s in unpaired <==> s < |players| && !Covers(slots, s)
    ensures forall s, j :: s in unpaired && j in unpaired && s != j ==> !Compatible(history, players, s, j)
  {
    var n := |players|;
    var paired := Unmarked(n);
    pairs, slots := [], [];
    var num := 0;
    while num < n
      invariant 0 <= num <= n && |paired| == n
      invariant slots + GreedyFrom(history, players, paired, num) == Greedy(history, players)
      invariant Emits(players, slots, pairs)
      invariant forall s :: 0 <= s < n ==> (paired[s] <==> Covers(slots, s))
    {
      var found := Scan(history, players, paired, num);
      if found.Some? {
        var i := found.value;
        CommitStep(history, players, paired, num, i, slots);
        EmitsAppend(players, slots, pairs, num, i);
        CommitKeepsCover(slots, SlotPair(num, i), paired, n);
        pairs := pairs + [Pair(players[num].id, players[num].name, players[i].id, players[i].name)];
        slots := slots + [SlotPair(num, i)];
        paired := paired[num := true][i := true];
      } else {
        SkipStep(history, players, paired, num, slots);
      }
      num := num + 1;
    }
    unpaired := set s: nat | s < n && !paired[s];
    GreedyCorrect(history, players);
  }

  method Scan(history: History, players: seq<Standing>, paired: seq<bool>, num: nat) returns (found: Option<nat>)
    requires |paired| == |players| && num < |players|
    ensures found == (if paired[num] then None else FirstFit(history, players, paired, num, 0))
  {
    var n := |players|;
    var i := 0;
    while i < n
      invariant 0 <= i <= n
      invariant !paired[num] ==> FirstFit(history, players, paired, num, 0) == FirstFit(history, players, paired, num, i)
    {
      if i != num && !paired[i] && !paired[num] {
        var available := TestPair(history, players[num].id, players[i].id);
        if available {
          return Some(i);
        }
      }
      i := i + 1;
    }
    return None;
  }

  /** Committing the pair `(num, i)` found by the scan moves the run one
      turn on. */
  lemma CommitStep(h: History, players: seq<Standing>, paired: seq<bool>, num: nat, i: nat, slots: seq<SlotPair>)
    requires |paired| == |players| && num < |players| && i < |players|
    requires !paired[num] && FirstFit(h, players, paired, num, 0) == Some(i)
    requires slots + GreedyFrom(h, players, paired, num) == Greedy(h, players)
    ensures (slots + [SlotPair(num, i)]) + GreedyFrom(h, players, paired[num := true][i := true], num + 1) == Greedy(h, players)
  {
    var x := SlotPair(num, i);
    var rest := GreedyFrom(h, players, paired[num := true][i := true], num + 1);
    assert GreedyFrom(h, players, paired, num) == [x] + rest;
    assert (slots + [x]) + rest == slots + ([x] + rest);
  }

  /** Appending a pair and its tuple keeps them in step. */
  lemma EmitsAppend(players: seq<Standing>, slots: seq<SlotPair>, pairs: seq<Pair>, num: nat, i: nat)
    requires num < |players| && i < |players| && Emits(players, slots, pairs)
    ensures Emits(players, slots + [SlotPair(num, i)], pairs + [Pair(players[num].id, players[num].name, players[i].id, players[i].name)])
  {
  }

  /** A turn that commits nothing leaves the rest of the run unchanged. */
  lemma SkipStep(h: History, players: seq<Standing>, paired: seq<bool>, num: nat, slots: seq<SlotPair>)
    requires |paired| == |players| && num < |players|
    requires paired[num] || FirstFit(h, players, paired, num, 0).None?
    requires slots + GreedyFrom(h, players, paired, num) == Greedy(h, players)
    ensures slots + GreedyFrom(h, players, paired, num + 1) == Greedy(h, players)
  {
  }

  /** Marking the two slots of a committed pair keeps the flags in step with
      the pairs emitted so far. */
  lemma CommitKeepsCover(slots: seq<SlotPair>, x: SlotPair, paired: seq<bool>, n: nat)
    requires |paired| == n && x.first < n && x.second < n
    requires forall s :: 0 <= s < n ==> (paired[s] <==> Covers(slots, s))
    ensures forall s :: 0 <= s < n ==>
      (paired[x.first := true][x.second := true][s] <==> Covers(slots + [x], s))
  {
    var ys := slots + [x];
    forall s | 0 <= s < n
      ensures paired[x.first := true][x.second := true][s] <==> Covers(ys, s)
    {
      assert ys[|slots|] == x;
      if Covers(slots, s) {
        var k :| 0 <= k < |slots| && (slots[k].first == s || slots[k].second == s);
        assert ys[k] == slots[k];
      }
      if Covers(ys, s) {
        var k :| 0 <= k < |ys| && (ys[k].first == s || ys[k].second == s);
        if k < |slots| {
          assert ys[k] == slots[k];
        }
      }
    }
  }
}

=== FILE: match_history.dfy ===
/** The match history as the pairing engine reads it: one row per reported
    match, and the has-played query that `test_pair` issues against it. */
module MatchHistory {

  /** A row of the matches table: `playerA` is the winner, `playerB` the
      loser, and `victory` repeats the winner's id. */
  datatype Match = Match(playerA: int, playerB: int, victory: int) {

    /** The row records a game between `a` and `b`, in either order. */
    predicate Between(a: int, b: int) {
      (playerA == a && playerB == b) || (playerA == b && playerB == a)
    }
  }

  /** The history of reported matches, oldest first. */
  type History = seq<Match>

  /** Reference meaning of "already played": some row joins the two ids. */
  predicate HasPlayed(h: History, a: int, b: int) {
    exists k :: 0 <= k < |h| && h[k].Between(a, b)
  }

  /** The number of rows between `a` and `b` in either order; the value the
      COUNT(*) query of `test_pair` returns. */
  function CountBetween(h: History, a: int, b: int): (c: nat)
    ensures c <= |h|
    ensures c == 0 <==> forall k :: 0 <= k < |h| ==> !h[k].Between(a, b)
  {
    if |h| == 0 then 0
    else CountBetween(h[..|h| - 1], a, b) + (if h[|h| - 1].Between(a, b) then 1 else 0)
  }

  /** `test_pair`: the two players may meet exactly when they have never met. */
  function TestPair(h: History, a: int, b: int): (available: bool)
    ensures available <==> !HasPlayed(h, a, b)
  {
    CountBetween(h, a, b) == 0
  }

  /** The query counts both orderings, so the count does not depend on which
      player is named first. */
  lemma {:induction false} CountBetweenSymmetric(h: History, a: int, b: int)
    ensures CountBetween(h, a, b) == CountBetween(h, b, a)
  {
    if |h| > 0 {
      CountBetweenSymmetric(h[..|h| - 1], a, b);
    }
  }

  /** Hence `test_pair` is symmetric. */
  lemma TestPairSymmetric(h: History, a: int, b: int)
    ensures TestPair(h, a, b) == TestPair(h, b, a)
  {
    CountBetweenSymmetric(h, a, b);
  }

  /** Appending a row raises the count of exactly the pair it records. */
  lemma CountBetweenAppend(h: History, m: Match, a: int, b: int)
    ensures CountBetween(h + [m], a, b) == CountBetween(h, a, b) + (if m.Between(a, b) then 1 else 0)
  {
    assert (h + [m])[..|h|] == h;
  }
}

=== FILE: scenarios.dfy ===
/** Worked inputs for the pairing engine: four players sorted by points,
    under different match histories. */
module Scenarios {
  import opened Wrappers
  import opened MatchHistory
  import opened Pairing

  function Four(): seq<Standing> {
    [Standing(1, "A", 3), Standing(2, "B", 2), Standing(3, "C", 2), Standing(4, "D", 1)]
  }

  /** First round: neighbours in the standings meet. */
  lemma FreshRoundPairsNeighbours()
    ensures Emits(Four(), Greedy([], Four()), [Pair(1, "A", 2, "B"), Pair(3, "C", 4, "D")])
  {
    EmptyHistoryPairsNeighbours(Four());
  }

  /** A and B have met, so A skips B and takes C; B then meets D. */
  lemma RematchIsSkipped()
    ensures Emits(Four(), Greedy([Match(1, 2, 1)], Four()), [Pair(1, "A", 3, "C"), Pair(2, "B", 4, "D")])
  {
  }

  /** With A-B played among A, B, C, A skips B and takes C; B is then left
      out. */
  lemma ThreeWithRematchRun()
    ensures Greedy([Match(1, 2, 1)], Four()[..3]) == [SlotPair(0, 2)]
  {
    var h, p := [Match(1, 2, 1)], Four()[..3];
    assert p[0].id == 1 && p[1].id == 2 && p[2].id == 3;
    assert h[0].Between(1, 2) && !h[0].Between(1, 3);
    assert !Compatible(h, p, 0, 1) && Compatible(h, p, 0, 2);
  }

  /** Leaving A out to pair B-C gives a well-formed round: in range,
      disjoint, in turn order, and at most half the players. */
  lemma SkippedTurnShape()
    ensures var p, qs := Four()[..3], [SlotPair(1, 2)];
      InRange(qs, |p|) && SlotDisjoint(qs) && FirstsIncreasing(qs) && FirstAboveSecond(qs) && 2 * |qs| <= |p|
  {
  }

  /** It is also free of rematches, first-fit and maximal. */
  lemma SkippedTurnMeetsOtherGuarantees()
    ensures var h, p, qs := [Match(1, 2, 1)], Four()[..3], [SlotPair(1, 2)];
      InRange(qs, |p|) && NoRematch(h, p, qs) && FirstFitChoice(h, p, qs) && Maximal(h, p, qs)
  {
    var h, p, qs := [Match(1, 2, 1)], Four()[..3], [SlotPair(1, 2)];
    assert p[1].id == 2 && p[2].id == 3;
    assert h[0].Between(2, 1) && !h[0].Between(2, 3);
    assert !Compatible(h, p, 1, 0) && Compatible(h, p, 1, 2);
    assert qs[0].first == 1 && qs[0].second == 2;
  }

  /** Yet it skips A's turn although C was free. */
  lemma SkippedTurnSkipsA()
    ensures !NoneSkipped([Match(1, 2, 1)], Four()[..3], [SlotPair(1, 2)])
  {
    var h, p, qs := [Match(1, 2, 1)], Four()[..3], [SlotPair(1, 2)];
    assert p[0].id == 1 && p[2].id == 3;
    assert !h[0].Between(1, 3);
    assert Compatible(h, p, 0, 2);
    assert qs[..0] == [];
    assert CommittedBefore(qs, 0, 0) && !Covers(qs[..0], 0) && !Covers(qs[..0], 2);
  }

  /** Pairing B-C is therefore not a run of the matcher: it fails the
      guarantees of a round. */
  lemma SkippedTurnIsNoRound()
    ensures !GoodRound([Match(1, 2, 1)], Four()[..3], [SlotPair(1, 2)])
  {
    ThreeWithRematchRun();
    GoodRoundExactlyGreedy([Match(1, 2, 1)], Four()[..3], [SlotPair(1, 2)]);
  }

  /** An odd count is not rejected: the last player is silently left out. */
  lemma OddCountLeavesLastOut()
    ensures Greedy([], Four()[..3]) == [SlotPair(0, 1)]
  {
    EmptyHistoryPairsNeighbours(Four()[..3]);
  }

  /** A has met B, C and D. */
  function Exhausted(): History {
    [Match(1, 2, 1), Match(1, 3, 1), Match(1, 4, 1)]
  }

  /** The scans of the `Exhausted` run: A finds nobody, B finds C, D finds
      nobody once B and C are taken. */
  lemma ExhaustedScans()
    ensures FirstFit(Exhausted(), Four(), Unmarked(4), 0, 0) == None
    ensures FirstFit(Exhausted(), Four(), Unmarked(4), 1, 0) == Some(2)
    ensures FirstFit(Exhausted(), Four(), Unmarked(4)[1 := true][2 := true], 3, 0) == None
  {
    var h, p := Exhausted(), Four();
    assert Unmarked(4) == [false, false, false, false];
    assert h[0].Between(1, 2) && h[1].Between(1, 3) && h[2].Between(1, 4);
    assert !Compatible(h, p, 0, 1) && !Compatible(h, p, 0, 2) && !Compatible(h, p, 0, 3);
    assert Compatible(h, p, 1, 2);
    assert !Compatible(h, p, 3, 0);
  }

  /** A has met everyone: no error is raised, A and the player left over are
      simply missing from the pairs. */
  lemma ExhaustedPlayerIsLeftOut()
    ensures Greedy(Exhausted(), Four()) == [SlotPair(1, 2)]
  {
    ExhaustedScans();
    var after := Unmarked(4)[1 := true][2 := true];
    assert GreedyFrom(Exhausted(), Four(), after, 2) == GreedyFrom(Exhausted(), Four(), after, 3) == [];
  }

  /** Only C and D have met. */
  function CDPlayed(): History {
    [Match(3, 4, 3)]
  }

  /** The scans of the `CDPlayed` run: A finds B, and then C and D find
      nobody. */
  lemma CDPlayedScans()
    ensures FirstFit(CDPlayed(), Four(), Unmarked(4), 0, 0) == Some(1)
    ensures FirstFit(CDPlayed(), Four(), Unmarked(4)[0 := true][1 := true], 2, 0) == None
    ensures FirstFit(CDPlayed(), Four(), Unmarked(4)[0 := true][1 := true], 3, 0) == None
  {
    var h, p := CDPlayed(), Four();
    assert Unmarked(4) == [false, false, false, false];
    assert Compatible(h, p, 0, 1);
    assert h[0].Between(3, 4) && h[0].Between(4, 3);
    assert !Compatible(h, p, 2, 3) && !Compatible(h, p, 3, 2);
  }

  /** A-C and B-D: a pairing of all four players. */
  function CrossPairing(): seq<SlotPair> {
    [SlotPair(0, 2), SlotPair(1, 3)]
  }

  /** Helper of `GreedyCanMissFullPairing`: A-C and B-D is a well-formed
      round, in range and slot-disjoint. */
  lemma CrossPairingShape()
    ensures InRange(CrossPairing(), 4) && SlotDisjoint(CrossPairing())
  {
    var full := CrossPairing();
    assert full[0] == SlotPair(0, 2) && full[1] == SlotPair(1, 3);
  }

  /** Helper of `GreedyCanMissFullPairing`: when only C and D have met,
      A-C and B-D is not a rematch. */
  lemma CDPlayedAdmitsCrossPairing()
    ensures InRange(CrossPairing(), 4)
    ensures NoRematch(CDPlayed(), Four(), CrossPairing())
  {
    CrossPairingShape();
    var h, p, full := CDPlayed(), Four(), CrossPairing();
    assert full[0] == SlotPair(0, 2) && full[1] == SlotPair(1, 3);
    assert p[0].id == 1 && p[1].id == 2 && p[2].id == 3 && p[3].id == 4;
    assert !h[0].Between(1, 3) && !h[0].Between(2, 4);
    assert Compatible(h, p, 0, 2) && Compatible(h, p, 1, 3);
  }

  /** Helper of `GreedyCanMissFullPairing`: A-C and B-D leave nobody out. */
  lemma CrossPairingCoversAll()
    ensures forall s :: 0 <= s < 4 ==> Covers(CrossPairing(), s)
  {
    var full := CrossPairing();
    assert full[0] == SlotPair(0, 2) && full[1] == SlotPair(1, 3);
    forall s | 0 <= s < 4
      ensures Covers(full, s)
    {
      if s == 0 || s == 2 {
        assert full[0].first == s || full[0].second == s;
      } else {
        assert full[1].first == s || full[1].second == s;
      }
    }
  }

  /** Greedy first-fit can miss a full pairing: C and D have met, A takes B
      first, and C and D are left over, although A-C and B-D would pair
      everybody without a rematch. */
  lemma GreedyCanMissFullPairing()
    ensures Greedy(CDPlayed(), Four()) == [SlotPair(0, 1)]
    ensures !Covers(Greedy(CDPlayed(), Four()), 2) && !Covers(Greedy(CDPlayed(), Four()), 3)
    ensures exists full ::
      InRange(full, 4) && SlotDisjoint(full) && NoRematch(CDPlayed(), Four(), full) &&
      forall s :: 0 <= s < 4 ==> Covers(full, s)
  {
    CDPlayedScans();
    var after := Unmarked(4)[0 := true][1 := true];
    assert GreedyFrom(CDPlayed(), Four(), after, 1) == GreedyFrom(CDPlayed(), Four(), after, 2) == [];
    CrossPairingShape();
    CDPlayedAdmitsCrossPairing();
    CrossPairingCoversAll();
    var full := CrossPairing();
    assert InRange(full, 4) && SlotDisjoint(full) && NoRematch(CDPlayed(), Four(), full);
  }
}

=== FILE: store.dfy ===
/** The in-memory effect of `reportMatch` on the players and matches
    tables, and what it means for later pairings. */
module Store {
  import opened Wrappers
  import opened MatchHistory
  import Pairing

  /** A row of the players table; `points` counts the player's wins. The
      standings query selects these three columns unchanged, so a table row
      and a standings row are one type. */
  type Player = Pairing.Standing

  /** The two tables the tournament keeps. */
  datatype Store = Store(players: seq<Player>, matches: History)

  /** `reportMatch` fails when no player has the winner's id: reading the
      winner's points finds no row, and the transaction is never committed. */
  datatype Error = UnknownWinner(id: int)

  /** The first row with id `id` at index `i` or later. */
  function Lookup(players: seq<Player>, id: int, i: nat): (r: Option<nat>)
    requires i <= |players|
    ensures r.Some? ==> i <= r.value < |players| && players[r.value].id == id
    ensures r.None? ==> forall k :: i <= k < |players| ==> players[k].id != id
    decreases |players| - i
  {
    if i == |players| then None
    else if players[i].id == id then Some(i)
    else Lookup(players, id, i + 1)
  }

  /** The UPDATE of `reportMatch`: every row with id `id` gets `points`. */
  function SetPoints(players: seq<Player>, id: int, points: int): (r: seq<Player>)
    ensures |r| == |players|
    ensures forall k :: 0 <= k < |players| ==>
      r[k].id == players[k].id && r[k].name == players[k].name &&
      r[k].points == (if players[k].id == id then points else players[k].points)
  {
    seq(|players|, k requires 0 <= k < |players| =>
      if players[k].id == id then players[k].(points := points) else players[k])
  }

  /** `reportMatch(winner, loser)`: appends the row `(winner, loser, winner)`
      to the matches and gives the winner one more point. */
  function ReportMatch(s: Store, winner: int, loser: int): (r: Result<Store, Error>)
    ensures r.Failure? <==> forall k :: 0 <= k < |s.players| ==> s.players[k].id != winner
    ensures r.Failure? ==> r.error == UnknownWinner(winner)
    ensures r.Success? ==> r.value.matches == s.matches + [Match(winner, loser, winner)]
    ensures r.Success? ==> |r.value.players| == |s.players|
    ensures r.Success? ==>
      forall k :: 0 <= k < |s.players| ==>
        r.value.players[k].id == s.players[k].id && r.value.players[k].name == s.players[k].name &&
        (s.players[k].id != winner ==> r.value.players[k] == s.players[k])
    ensures r.Success? && Pairing.DistinctIds(s.players) ==>
      forall k :: 0 <= k < |s.players| && s.players[k].id == winner ==>
        r.value.players[k].points == s.players[k].points + 1
  {
    match Lookup(s.players, winner, 0)
    case None => Failure(UnknownWinner(winner))
    case Some(k) =>
      var points := s.players[k].points + 1;
      Success(Store(SetPoints(s.players, winner, points), s.matches + [Match(winner, loser, winner)]))
  }

  // ----- Points keep counting wins -----

  /** The number of recorded matches that `id` won. */
  function Wins(h: History, id: int): nat {
    if |h| == 0 then 0 else Wins(h[..|h| - 1], id) + (if h[|h| - 1].victory == id then 1 else 0)
  }

  /** Every player's points equal the wins recorded for them. */
  predicate PointsCountWins(s: Store) {
    forall k :: 0 <= k < |s.players| ==> s.players[k].points == Wins(s.matches, s.players[k].id)
  }

  /** With unique ids, a successful report keeps points equal to recorded
      wins. */
  lemma ReportMatchKeepsPointsCountingWins(s: Store, winner: int, loser: int)
    requires Pairing.DistinctIds(s.players) && PointsCountWins(s)
    requires ReportMatch(s, winner, loser).Success?
    ensures PointsCountWins(ReportMatch(s, winner, loser).value)
  {
    var m := Match(winner, loser, winner);
    assert (s.matches + [m])[..|s.matches|] == s.matches;
  }

  /** The sum of all players' points. */
  function TotalPoints(players: seq<Player>): int {
    if |players| == 0 then 0 else players[0].points + TotalPoints(players[1..])
  }

  lemma {:induction false} TotalPointsBump(ps: seq<Player>, qs: seq<Player>, w: nat)
    requires |ps| == |qs| && w < |ps|
    requires forall k :: 0 <= k < |ps| ==> qs[k].points == ps[k].points + (if k == w then 1 else 0)
    ensures TotalPoints(qs) == TotalPoints(ps) + 1
  {
    if w > 0 {
      TotalPointsBump(ps[1..], qs[1..], w - 1);
    } else {
      TotalPointsSame(ps[1..], qs[1..]);
    }
  }

  lemma {:induction false} TotalPointsSame(ps: seq<Player>, qs: seq<Player>)
    requires |ps| == |qs|
    requires forall k :: 0 <= k < |ps| ==> qs[k].points == ps[k].points
    ensures TotalPoints(qs) == TotalPoints(ps)
  {
    if |ps| > 0 {
      TotalPointsSame(ps[1..], qs[1..]);
    }
  }

  /** With unique ids, each successful report hands out exactly one point. */
  lemma ReportMatchAddsOnePoint(s: Store, winner: int, loser: int)
    requires Pairing.DistinctIds(s.players)
    requires ReportMatch(s, winner, loser).Success?
    ensures TotalPoints(ReportMatch(s, winner, loser).value.players) == TotalPoints(s.players) + 1
  {
    var w := Lookup(s.players, winner, 0).value;
    TotalPointsBump(s.players, ReportMatch(s, winner, loser).value.players, w);
  }

  // ----- Reported pairs are never paired again -----

  /** A report bans exactly the reported pair: `test_pair` answers as before
      for every other pair, and refuses the reported one in either order. */
  lemma ReportMatchBansOnlyThatPair(s: Store, winner: int, loser: int, a: int, b: int)
    requires ReportMatch(s, winner, loser).Success?
    ensures var h' := ReportMatch(s, winner, loser).value.matches;
      !TestPair(h', winner, loser) && !TestPair(h', loser, winner) &&
      ((a == winner && b == loser) || (a == loser && b == winner) || TestPair(h', a, b) == TestPair(s.matches, a, b))
  {
    var m := Match(winner, loser, winner);
    CountBetweenAppend(s.matches, m, a, b);
    CountBetweenAppend(s.matches, m, winner, loser);
    CountBetweenAppend(s.matches, m, loser, winner);
  }

  /** Once a match is reported, no later run of the pairing engine pairs
      its two players again, whatever the standings. */
  lemma ReportedPairNeverPairedAgain(s: Store, winner: int, loser: int, standings: seq<Pairing.Standing>)
    requires ReportMatch(s, winner, loser).Success?
    ensures var ps := Pairing.Greedy(ReportMatch(s, winner, loser).value.matches, standings);
      Pairing.InRange(ps, |standings|) &&
      forall k :: 0 <= k < |ps| ==>
        var p := Pairing.PairOf(standings, ps[k]);
        !(p.idA == winner && p.idB == loser) && !(p.idA == loser && p.idB == winner)
  {
    var h' := ReportMatch(s, winner, loser).value.matches;
    Pairing.GreedyCorrect(h', standings);
    ReportMatchBansOnlyThatPair(s, winner, loser, winner, loser);
  }
}

=== FILE: wrappers.dfy ===
/** Option and Result types shared by the tournament model. */
module Wrappers {

  /** A value that may be absent, as the pairing scan may find no opponent. */
  datatype Option<+T> = None | Some(value: T)

  /** The outcome of an operation that can fail with an error value. */
  datatype Result<+R, +E> = Success(value: R) | Failure(error: E)
}
